=== FILE: README.md ===
# ScreenToGif localization window — a Dafny model

This project models the decision logic of ScreenToGif's localization window
(`ScreenToGif/Windows/Other/Localization.xaml.cs`): the list of merged resource
dictionaries the window shows, the checks a candidate string-resource file
(`StringResources.<code>.xaml`) must pass before it is imported, the walk up a
culture's parent chain to the nearest supported culture (`CheckSupportedCulture`),
and the construction of the supported-culture universe from the local culture list
and the IETF language-tag registry (`GetProperCulturesAsync`).

Everything is pure functions over immutable datatypes:

- `wrappers.dfy` — `Option` (a reference that may be null) and `Result` (a call that may throw).
- `seqs.dfy` — `Filter` (LINQ `Where`), `RemoveAt`, `InsertAt` and the `Swapped` relation.
- `text.dfy` — ordinal `Contains`/`IndexOf`, `Substring(IndexOf(marker))` as `From`, and
  `Split('.', RemoveEmptyEntries)` with its partner `Join`.
- `cultures.dfy` — a culture is `Invariant` (name "", its own parent) or
  `Specific(code, parent)`. The parent chain is carried structurally, so the datatype's
  size is the depth measure on which the upward walk terminates. Membership in a culture
  list is by name. `Resolve` is `CheckSupportedCulture`.
- `registry.dfy` — the manifest step (first resource named `ietf-language-tags_json`),
  the tag-list step (every `lang` whose `defs` is not `"0"`), and the universe: the
  local cultures with a non-empty name, narrowed to the registry's codes on success and
  left whole on any failure.
- `resource_list.dfy` — how each merged dictionary is shown on load, the enabling
  conditions of the commands, and move up / move down / remove / append on the list
  and its selection.
- `import.dfy` — `Validate` runs the checks of `Add_Executed` in the source's order.
  `Add` performs the import and appends the new row.
- `naming.dfy` — what happens to the conventional file name `StringResources.<code>.xaml`.

External collaborators are parameters. `CultureInfo.GetCultureInfo` is a
`map<string, Culture>` keyed by the name as written; the value may carry a different
canonical name. `CultureInfo.GetCultures` is the `local` list. The two HTTP downloads
are `Download` values: a parsed document or a failure. The answers of
`LocalizationHelper.Move`, `Remove` and `ImportStringResource` are a `bool` or an
`ImportResult` argument.

Points where the source is easy to misread, and which the model follows as written:

- The duplicate check runs before the three-piece check.
- A code that `GetCultureInfo` does not know gives "Unknown Language".
- A culture with no supported ancestor makes `CheckSupportedCulture` return null.
  Line 242 then dereferences that null outside any `try`. The model gives this its own
  outcome, `Crashed(NullCulture)`; the window does not show "Unknown Language" for it.
- On success the universe is the intersection of the local cultures with the registry's
  codes, not the registry's set itself.
- The `null` test at line 310 never fires. An empty registry answer therefore gives an
  empty universe, not the local fallback.
- `MoveDown_CanExecute` (line 97) holds with nothing selected (index -1) in a non-empty
  list. If the helper then accepts, `Items[-1]` throws. `MoveDown` returns `IndexFault`
  for this case.

## Model

| member | source | states |
|---|---|---|
| Text.IndexOf | ScreenToGif/Windows/Other/Localization.xaml.cs:194-202 | the index is found exactly when the marker occurs; the marker matches there and at no earlier position |
| Text.From | ScreenToGif/Windows/Other/Localization.xaml.cs:202 | the tail starts with the marker, is a suffix of the file name and begins at the first occurrence |
| Text.Split | ScreenToGif/Windows/Other/Localization.xaml.cs:212 | every piece is non-empty and holds no '.' |
| Text.SplitDistributes | ScreenToGif/Windows/Other/Localization.xaml.cs:212 | a '.' cuts the input in two: the pieces of the whole are the pieces of the left side followed by those of the right side, so leading, trailing and doubled dots only drop empty entries |
| Text.SplitJoin | ScreenToGif/Windows/Other/Localization.xaml.cs:212 | splitting the '.'-join of non-empty dot-free pieces gives those pieces back |
| Text.SplitKeepsContent | ScreenToGif/Windows/Other/Localization.xaml.cs:212 | the pieces, written one after the other, are the input with its dots deleted: no other character is lost or reordered |
| Cultures.Chain | ScreenToGif/Windows/Other/Localization.xaml.cs:291-296 | the chain starts at the culture, each entry is the parent of the one before it, it ends just below the invariant root and is empty only for the root |
| Cultures.Walk | ScreenToGif/Windows/Other/Localization.xaml.cs:289-297 | a found culture is on the chain and in the list; nothing is found exactly when no culture on the chain is in the list |
| Cultures.Resolve | ScreenToGif/Windows/Other/Localization.xaml.cs:284-300 | a supported culture is returned unchanged; any result is supported and is the culture or one of its ancestors; null exactly when neither the culture nor any chain member is supported |
| Cultures.ResolveNearest | ScreenToGif/Windows/Other/Localization.xaml.cs:289-299 | for a list without empty names, the result is the first supported culture walking up the chain, and never the invariant culture |
| Cultures.ResolveNoneExactly | ScreenToGif/Windows/Other/Localization.xaml.cs:291-299 | for a list without empty names, null exactly when no culture from the input up to, but excluding, the root is supported |
| Cultures.ResolveIdempotent | ScreenToGif/Windows/Other/Localization.xaml.cs:286-287 | resolving a resolved culture again returns it unchanged |
| Registry.FirstNamed | ScreenToGif/Windows/Other/Localization.xaml.cs:380-382 | the index of the first resource with the given name, or none when no resource has it |
| Registry.DatasetPath | ScreenToGif/Windows/Other/Localization.xaml.cs:380-382 | the path of the first resource named `ietf-language-tags_json`; fails (the throwing `First()`) exactly when there is none |
| Registry.LanguageCodes | ScreenToGif/Windows/Other/Localization.xaml.cs:352-354 | a code is listed exactly when some record with that `lang` has `defs` other than "0" |
| Registry.FetchLanguageCodes | ScreenToGif/Windows/Other/Localization.xaml.cs:325-385 | a failed manifest download, a missing dataset and an empty path each fail the lookup; past those, the lookup succeeds exactly when the tag list at the manifest's path downloads, and a failed tag-list download is a transport failure; on success the codes are exactly the defined tags at that path |
| Registry.ProperCultures | ScreenToGif/Windows/Other/Localization.xaml.cs:302-323 | the universe has no empty names and draws only on local cultures; on success it is exactly the named local cultures the registry lists (empty for an empty registry); on failure it is every named local culture |
| ResourceList.Classify | ScreenToGif/Windows/Other/Localization.xaml.cs:38-75 | a source-less dictionary is the disabled Settings row with the settings note; a source with the marker is an enabled translation, recognised under the middle piece when its tail has three pieces and "Not recognized" otherwise; any other source is a disabled style row with the style note |
| ResourceList.Load | ScreenToGif/Windows/Other/Localization.xaml.cs:36-80 | one row per merged dictionary, in order, with the last row selected (none for an empty list) |
| ResourceList.CanMoveUp | ScreenToGif/Windows/Other/Localization.xaml.cs:90-93 | move up is enabled exactly when a row is selected and it is not the first row |
| ResourceList.CanMoveDown | ScreenToGif/Windows/Other/Localization.xaml.cs:95-98 | move down is enabled when a selected row has a row below it, and also when nothing is selected in a non-empty list |
| ResourceList.CanRemove | ScreenToGif/Windows/Other/Localization.xaml.cs:105-108 | remove is enabled exactly when some row is selected |
| ResourceList.MoveUp | ScreenToGif/Windows/Other/Localization.xaml.cs:116-130 | when the helper accepts, the selected row and the one above it change places, nothing else moves and the selection follows the row; otherwise nothing changes |
| ResourceList.MoveDown | ScreenToGif/Windows/Other/Localization.xaml.cs:132-146 | the mirror of MoveUp; with nothing selected an accepted move faults |
| ResourceList.Remove | ScreenToGif/Windows/Other/Localization.xaml.cs:170-176 | when the helper accepts, exactly the selected row is removed and later rows shift up by one; otherwise nothing changes |
| ResourceList.Append | ScreenToGif/Windows/Other/Localization.xaml.cs:274 | the new row goes last and every earlier row and the selection stay |
| ResourceList.MoveUpThenDown | ScreenToGif/Windows/Other/Localization.xaml.cs:92-146 | moving a row up and then down restores the list and the selection |
| ResourceList.MoveDownThenUp | ScreenToGif/Windows/Other/Localization.xaml.cs:92-146 | moving a selected row down and then up restores the list and the selection |
| Seqs.Filter | ScreenToGif/Windows/Other/Localization.xaml.cs:304-309 | `Where` keeps exactly the elements that satisfy the predicate |
| Import.Validate | ScreenToGif/Windows/Other/Localization.xaml.cs:194-248 | refused without the marker; refused as a duplicate exactly when a sourced dictionary holds the tail, whatever the piece count; refused for format exactly when the tail has no three pieces; past those checks, with the middle piece as the code: unknown language exactly when no culture has that name, a null resolution exactly when nothing on its chain is supported, redundant exactly when it resolves to a differently named culture (which the rejection names), and accepted exactly when it resolves to a culture with the same name |
| Import.DuplicateSurvivesAppend | ScreenToGif/Windows/Other/Localization.xaml.cs:204 | a tail that is a duplicate stays one whatever dictionaries are merged before or after the one that holds it |
| Import.SourcelessNeverDuplicate | ScreenToGif/Windows/Other/Localization.xaml.cs:204 | a merged dictionary without a source, first or last, never changes whether a tail is a duplicate |
| Import.Add | ScreenToGif/Windows/Other/Localization.xaml.cs:178-278 | only an accepted name with a returning import adds a row; it adds exactly one enabled translation row at the end, recognised under the code; a refusal happens only for a rejected name and shows its reason; a null culture crashes, and so does an accepted import that leaves a last dictionary without a source; a throwing import is the failure path; every other outcome leaves the list unchanged |
| Import.CanonicalAcceptedIffSupported | ScreenToGif/Windows/Other/Localization.xaml.cs:221-248 | a code written in canonical form is accepted exactly when its culture is in the universe |
| Import.SecondAddIsDuplicate | ScreenToGif/Windows/Other/Localization.xaml.cs:202-210 | once some merged dictionary's source contains a name's tail, every name with the same tail is refused as a duplicate and adds no row |
| Import.ImportedPathHoldsTail | ScreenToGif/Windows/Other/Localization.xaml.cs:202-204 | a dictionary registered under the imported file's own path contains that file's tail |
| Import.AddedRowIsLoadedRow | ScreenToGif/Windows/Other/Localization.xaml.cs:264-274 | when the import registers the accepted file under its own name, the add succeeds and the row it appends is the row the window shows for that dictionary on its next load |
| Import.AcceptedNameIsRecognized | ScreenToGif/Windows/Other/Localization.xaml.cs:50-66 | a name that passes validation is shown on the next load as a translation recognised under the validated code |
| Naming.SupportedCodeIsAccepted | ScreenToGif/Windows/Other/Localization.xaml.cs:212-248 | `StringResources.<code>.xaml` with a canonical, supported code is accepted |
| Naming.UnsupportedVariantIsRedundant | ScreenToGif/Windows/Other/Localization.xaml.cs:242-248 | a canonical code missing from the universe but with a supported ancestor is refused as redundant, naming the nearest supported ancestor |

## Left out

- Presentation: list items' images, `FindResource`, dialogs and their texts, file dialogs, `ScrollIntoView`, `CommandManager`. The dialog's cancel path at line 190 is UI only.
- HTTP requests, the user-agent string, stream reading and the JSON-to-XML conversion (lines 327-385). The model starts from parsed records. A null response stream or a request or parse failure is `Failed`.
- A record missing one of its elements. `XPathSelectElement(...).Value` then throws on null, which is not modelled; every record in the model has all of its fields. The manifest query is run at once by `First()` (line 382). A resource without `name` before the match, or a matching resource without `path`, therefore throws inside the `try` of `GetProperCulturesAsync`. The universe is then every local culture, as for a `Failed` download. The tag-list query (lines 352-354) is lazy. A record there without `defs` or `lang` only throws when the universe is enumerated, which happens inside `CheckSupportedCulture` during an add.
- `Dispatcher.Invoke`, `GC.Collect` and `Task.Factory.StartNew` as a scheduling device.
- Interleaving of commands. `Add_Executed` is `async void`. Its awaits at lines 226 and 254 hand the UI thread back between the duplicate check (line 204) and the append (line 274). Two overlapping adds of the same file can therefore both pass the duplicate check and add two rows. `LastOrDefault()` at line 264 can also see another command's change. The model treats each add as atomic.
- Import.SecondAddIsDuplicate: holds only for adds that do not overlap, for the reason above.
- The internals of `LocalizationHelper.Move`, `Remove`, `SaveSelected` and `ImportStringResource`, which are not part of this model. Their answers are parameters.
- .NET culture data: the real parent relation and the canonicalisation inside `CultureInfo.GetCultureInfo` are parameters. `CultureInfo.Equals` also compares `CompareInfo`, which the model folds into name equality.
- `IndexOf(string)` is culture-sensitive in .NET Framework, while `Contains` is ordinal. The model uses one ordinal search for both. The two searches can disagree. With ignorable characters inside the marker, `IndexOf` finds a match that `Contains` does not. With a combining mark right after the marker, `IndexOf` returns -1 even though `Contains` is true. `Substring(-1)` then throws at lines 56 and 202. The model has no such case: its marker check and its tail always agree.
- The generic `catch (Exception)` at lines 235-240 ("Error checking culture"). It is reached when an add runs before the universe is loaded (a null `_cultureList`) or when a lazy registry query throws. The model always has a loaded universe.
- `Save_Executed` (lines 148-168) only proposes a default file name in a dialog. Its `Substring(IndexOf(...))` throws for a selected row without the marker, such as the Settings row, because `Save_CanExecute` only asks for a selection.
- ResourceList.Remove: after a removal the selection is set to none. That is what the list control does when its selected item is removed; the source does not set it.
- Registry.ProperCultures: states which cultures the universe holds, not their order, which `Contains` never observes.
- Seqs.Filter: states membership and length, not that the relative order is kept.

=== FILE: cultures.dfy ===
/** Cultures, their parent chains, and the walk that finds the nearest supported
    culture (`CheckSupportedCulture`). */
module Cultures {
  import opened Wrappers

  /** A culture together with its chain of parents. `Invariant` is the root: its name is
      empty and it is its own parent. The parent of a `Specific` culture is structurally
      smaller, which is the depth measure that makes every upward walk end. */
  datatype Culture = Invariant | Specific(code: string, parent: Culture)
  {
    /** `CultureInfo.Name`. */
    function Name(): string
    {
      if Invariant? then "" else code
    }

    /** `CultureInfo.Parent`. */
    function Parent(): Culture
    {
      if Invariant? then Invariant else parent
    }
  }

  /** The cultures met walking up from `c` to, but excluding, the invariant root. */
  function Chain(c: Culture): (cs: seq<Culture>)
    ensures c.Invariant? <==> cs == []
    ensures cs != [] ==> cs[0] == c
    ensures forall i | 0 <= i < |cs| :: !cs[i].Invariant?
    ensures forall i | 0 <= i < |cs| - 1 :: cs[i + 1] == cs[i].Parent()
    ensures cs != [] ==> cs[|cs| - 1].Parent() == Invariant
  {
    match c
    case Invariant => []
    case Specific(_, p) => [c] + Chain(p)
  }

  /** `list.Contains(c)`, where cultures compare equal when their names do. */
  predicate Supports(list: seq<Culture>, c: Culture)
  {
    exists i | 0 <= i < |list| :: list[i].Name() == c.Name()
  }

  /** No culture of the list is the invariant one or shares its empty name. */
  predicate NamedOnly(list: seq<Culture>)
  {
    forall i | 0 <= i < |list| :: list[i].Name() != ""
  }

  /** `r` is the supported culture met first when walking up the chain of `c`. */
  predicate NearestSupported(list: seq<Culture>, c: Culture, r: Culture)
  {
    var cs := Chain(c);
    exists k | 0 <= k < |cs| ::
      && cs[k] == r
      && Supports(list, r)
      && forall j | 0 <= j < k :: !Supports(list, cs[j])
  }

  /** The `while (t != CultureInfo.InvariantCulture)` loop of `CheckSupportedCulture`. */
  function Walk(list: seq<Culture>, t: Culture): (r: Option<Culture>)
    decreases t
    ensures r.Some? ==> r.value in Chain(t) && Supports(list, r.value)
    ensures r.None? <==> forall i | 0 <= i < |Chain(t)| :: !Supports(list, Chain(t)[i])
  {
    if t.Invariant? then None
    else if Supports(list, t) then Some(t)
    else Walk(list, t.parent)
  }

  /** `CheckSupportedCulture`: the culture itself when the list holds it, otherwise the
      nearest ancestor the list holds, otherwise null (None). */
  function Resolve(list: seq<Culture>, c: Culture): (r: Option<Culture>)
    ensures Supports(list, c) ==> r == Some(c)
    ensures r.Some? ==> Supports(list, r.value) && (r.value == c || r.value in Chain(c))
    ensures r.None? <==> !Supports(list, c) && forall i | 0 <= i < |Chain(c)| :: !Supports(list, Chain(c)[i])
  {
    if Supports(list, c) then Some(c) else Walk(list, c)
  }

  lemma {:induction false} WalkNearest(list: seq<Culture>, t: Culture)
    requires Walk(list, t).Some?
    ensures NearestSupported(list, t, Walk(list, t).value)
    decreases t
  {
    var cs := Chain(t);
    if Supports(list, t) {
      assert cs[0] == t;
    } else {
      var p := t.parent;
      WalkNearest(list, p);
      var r := Walk(list, p).value;
      var k :| 0 <= k < |Chain(p)| && Chain(p)[k] == r && Supports(list, r)
        && forall j | 0 <= j < k :: !Supports(list, Chain(p)[j]);
      assert cs == [t] + Chain(p);
      assert cs[k + 1] == r;
      forall j | 0 <= j < k + 1
        ensures !Supports(list, cs[j])
      {
        if j > 0 {
          assert cs[j] == Chain(p)[j - 1];
        }
      }
    }
  }

  /** A resolved culture is the nearest supported culture on the requested culture's
      chain, and never the invariant culture, for any list without empty names. */
  lemma ResolveNearest(list: seq<Culture>, c: Culture)
    requires NamedOnly(list)
    requires Resolve(list, c).Some?
    ensures NearestSupported(list, c, Resolve(list, c).value)
    ensures Resolve(list, c).value != Invariant
  {
    if Supports(list, c) {
      assert !c.Invariant?;
      assert Chain(c)[0] == c;
    } else {
      WalkNearest(list, c);
    }
  }

  /** For a list without empty names, resolution fails exactly when no culture from the
      requested one up to, but excluding, the invariant root is in the list. */
  lemma ResolveNoneExactly(list: seq<Culture>, c: Culture)
    requires NamedOnly(list)
    ensures Resolve(list, c).None? <==> forall i | 0 <= i < |Chain(c)| :: !Supports(list, Chain(c)[i])
  {
    if !c.Invariant? {
      assert Chain(c)[0] == c;
    }
  }

  /** A resolved culture is a fixed point: resolving it again gives it back. */
  lemma ResolveIdempotent(list: seq<Culture>, c: Culture)
    requires Resolve(list, c).Some?
    ensures Resolve(list, Resolve(list, c).value) == Resolve(list, c)
  {
  }
}

=== FILE: import.dfy ===
/** `Add_Executed`: the checks a candidate string-resource file name goes through, in the
    source's order, and what a successful import adds to the list. */
module Import {
  import opened Wrappers
  import opened Text
  import opened Cultures
  import opened ResourceList

  /** The "Action Denied" dialogs of the validation. */
  datatype Rejection =
    | NotMarked                                  // the name lacks the marker
    | Duplicate                                  // a loaded dictionary already contains the name's tail
    | WrongFormat                                // the tail does not split into three pieces
    | UnknownLanguage(code: string)              // no culture has that name
    | RedundantCode(code: string, proper: string) // the code resolves to a differently named culture

  /** How validation ends: the code to import, a dialog, or a null resolved culture, whose
      name the source then reads outside any `try`. */
  datatype Verdict = Accept(code: string) | Reject(why: Rejection) | NoSupportedCulture(code: string)

  /** Some loaded dictionary with a source has `tail` inside its original string;
      dictionaries without a source never count. */
  predicate IsDuplicate(sources: seq<Option<string>>, tail: string)
  {
    exists i | 0 <= i < |sources| :: sources[i].Some? && Occurs(sources[i].value, tail)
  }

  /** A duplicate stays a duplicate whatever dictionaries are merged before or after it. */
  lemma DuplicateSurvivesAppend(a: seq<Option<string>>, b: seq<Option<string>>, tail: string)
    requires IsDuplicate(a, tail)
    ensures IsDuplicate(a + b, tail) && IsDuplicate(b + a, tail)
  {
    var i :| 0 <= i < |a| && a[i].Some? && Occurs(a[i].value, tail);
    assert (a + b)[i] == a[i];
    assert (b + a)[|b| + i] == a[i];
  }

  /** A merged dictionary without a source never makes a name a duplicate. */
  lemma SourcelessNeverDuplicate(a: seq<Option<string>>, tail: string)
    ensures IsDuplicate(a + [None], tail) == IsDuplicate(a, tail)
    ensures IsDuplicate([None] + a, tail) == IsDuplicate(a, tail)
  {
    if IsDuplicate(a, tail) {
      DuplicateSurvivesAppend(a, [None], tail);
    }
    if IsDuplicate(a + [None], tail) {
      var i :| 0 <= i < |a| + 1 && (a + [None])[i].Some? && Occurs((a + [None])[i].value, tail);
      assert a[i] == (a + [None])[i];
    }
    if IsDuplicate([None] + a, tail) {
      var i :| 0 <= i < |a| + 1 && ([None] + a)[i].Some? && Occurs(([None] + a)[i].value, tail);
      assert a[i - 1] == ([None] + a)[i];
    }
  }

  /** The name carries the marker, no loaded dictionary holds its tail, and the tail splits
      into three pieces: every check before the culture lookup passes. */
  predicate PassesNameChecks(sources: seq<Option<string>>, fileName: string)
  {
    && Occurs(fileName, Marker)
    && !IsDuplicate(sources, From(fileName, Marker))
    && |Split(From(fileName, Marker))| == 3
  }

  /** The language code of a name: the middle one of its tail's three pieces. */
  function CodeOf(fileName: string): (code: string)
    requires Occurs(fileName, Marker) && |Split(From(fileName, Marker))| == 3
    ensures IsPiece(code)
  {
    Split(From(fileName, Marker))[1]
  }

  /** The validation of `Add_Executed`. `sources` are the original strings of the merged
      dictionaries, `cultures` is what `CultureInfo.GetCultureInfo` knows (by the name as
      written), and `list` is the supported universe. */
  function Validate(sources: seq<Option<string>>, fileName: string, cultures: map<string, Culture>,
                    list: seq<Culture>): (v: Verdict)
    ensures v == Reject(NotMarked) <==> !Occurs(fileName, Marker)
    ensures Occurs(fileName, Marker) ==>
      (v == Reject(Duplicate) <==> IsDuplicate(sources, From(fileName, Marker)))
    ensures v == Reject(WrongFormat) <==>
      Occurs(fileName, Marker) && !IsDuplicate(sources, From(fileName, Marker))
      && |Split(From(fileName, Marker))| != 3
    ensures (v.Reject? && v.why.UnknownLanguage?) <==>
      PassesNameChecks(sources, fileName) && CodeOf(fileName) !in cultures
    ensures v.NoSupportedCulture? <==>
      && PassesNameChecks(sources, fileName)
      && CodeOf(fileName) in cultures
      && Resolve(list, cultures[CodeOf(fileName)]).None?
    ensures (v.Reject? && v.why.RedundantCode?) <==>
      && PassesNameChecks(sources, fileName)
      && CodeOf(fileName) in cultures
      && Resolve(list, cultures[CodeOf(fileName)]).Some?
      && Resolve(list, cultures[CodeOf(fileName)]).value.Name() != CodeOf(fileName)
    ensures v.Accept? <==>
      && PassesNameChecks(sources, fileName)
      && CodeOf(fileName) in cultures
      && Resolve(list, cultures[CodeOf(fileName)]).Some?
      && Resolve(list, cultures[CodeOf(fileName)]).value.Name() == CodeOf(fileName)
    ensures v.Accept? ==> v.code == CodeOf(fileName)
    ensures v.Accept? ==> exists i | 0 <= i < |list| :: list[i].Name() == v.code
    ensures v.Reject? && v.why.UnknownLanguage? ==> v.why.code == CodeOf(fileName)
    ensures v.NoSupportedCulture? ==> v.code == CodeOf(fileName)
    ensures v.Reject? && v.why.RedundantCode? ==>
      v.why == RedundantCode(CodeOf(fileName), Resolve(list, cultures[CodeOf(fileName)]).value.Name())
  {
    if !Occurs(fileName, Marker) then Reject(NotMarked)
    else
      var tail := From(fileName, Marker);
      if IsDuplicate(sources, tail) then Reject(Duplicate)
      else
        var pieces := Split(tail);
        if |pieces| != 3 then Reject(WrongFormat)
        else
          var code := pieces[1];
          if code !in cultures then Reject(UnknownLanguage(code))
          else match Resolve(list, cultures[code])
            case None => NoSupportedCulture(code)
            case Some(proper) =>
              if proper.Name() != code then Reject(RedundantCode(code, proper.Name()))
              else Accept(code)
  }

  /** Why an add ended in an unhandled exception. */
  datatype Fault =
    | NullCulture   // no supported culture on the chain: `properCulture.Name` on null
    | NullSource    // the last merged dictionary has no source: `Source.OriginalString` on null

  /** What `LocalizationHelper.ImportStringResource` did: it threw, or it returned and the
      merged dictionaries then end with `last` (None when there are none). */
  datatype ImportResult = ImportThrew | Imported(last: Option<Option<string>>)

  datatype Outcome = Refused(why: Rejection) | Crashed(fault: Fault) | ImportFailed | Added

  datatype AddResult = AddResult(outcome: Outcome, view: View)

  /** The row shown for the imported dictionary. */
  function ImportedItem(source: string, code: string): Item
  {
    Item(source, Translation, true, RecognizedAs(code))
  }

  /** `Add_Executed` after the file dialog: validation, then the import, then one new row
      at the end of the list. Only a successful import changes the list. */
  function Add(v: View, sources: seq<Option<string>>, fileName: string, cultures: map<string, Culture>,
               list: seq<Culture>, imported: ImportResult): (r: AddResult)
    requires v.Valid()
    ensures r.view.Valid()
    ensures !r.outcome.Added? ==> r.view == v
    ensures r.outcome.Added? <==>
      Validate(sources, fileName, cultures, list).Accept? && imported.Imported? && imported.last != Some(None)
    ensures r.outcome.Added? ==>
      && |r.view.items| == |v.items| + 1
      && r.view.items[..|v.items|] == v.items
      && r.view.selected == v.selected
      && r.view.items[|v.items|].kind == Translation
      && r.view.items[|v.items|].enabled
      && r.view.items[|v.items|].note == RecognizedAs(Validate(sources, fileName, cultures, list).code)
      && r.view.items[|v.items|].content == (if imported.last.None? then "Unknown" else imported.last.value.value)
    ensures Validate(sources, fileName, cultures, list).Reject? ==>
      r.outcome == Refused(Validate(sources, fileName, cultures, list).why)
    ensures Validate(sources, fileName, cultures, list).NoSupportedCulture? ==> r.outcome == Crashed(NullCulture)
    ensures Validate(sources, fileName, cultures, list).Accept? && imported == Imported(Some(None)) ==>
      r.outcome == Crashed(NullSource)
    ensures r.outcome.Refused? ==> Validate(sources, fileName, cultures, list).Reject?
    ensures r.outcome.Crashed? ==>
      Validate(sources, fileName, cultures, list).NoSupportedCulture? || imported == Imported(Some(None))
    ensures r.outcome == ImportFailed <==>
      Validate(sources, fileName, cultures, list).Accept? && imported.ImportThrew?
  {
    match Validate(sources, fileName, cultures, list)
    case Reject(why) => AddResult(Refused(why), v)
    case NoSupportedCulture(_) => AddResult(Crashed(NullCulture), v)
    case Accept(code) =>
      match imported
      case ImportThrew => AddResult(ImportFailed, v)
      case Imported(None) => AddResult(Added, Append(v, ImportedItem("Unknown", code)))
      case Imported(Some(None)) => AddResult(Crashed(NullSource), v)
      case Imported(Some(Some(source))) => AddResult(Added, Append(v, ImportedItem(source, code)))
  }

  /** For a code written in its canonical form, the name is accepted exactly when the
      supported universe holds that culture. */
  lemma CanonicalAcceptedIffSupported(sources: seq<Option<string>>, fileName: string,
                                      cultures: map<string, Culture>, list: seq<Culture>)
    requires Occurs(fileName, Marker) && !IsDuplicate(sources, From(fileName, Marker))
    requires |Split(From(fileName, Marker))| == 3
    requires Split(From(fileName, Marker))[1] in cultures
    requires cultures[Split(From(fileName, Marker))[1]].Name() == Split(From(fileName, Marker))[1]
    ensures Validate(sources, fileName, cultures, list).Accept? <==>
      Supports(list, cultures[Split(From(fileName, Marker))[1]])
  {
  }

  /** Once some merged dictionary's source contains a name's tail (as after importing that
      name), any file name with the same tail is refused as a duplicate and adds no row. */
  lemma SecondAddIsDuplicate(v: View, sources': seq<Option<string>>, first: string, second: string,
                             cultures: map<string, Culture>, list: seq<Culture>, imported: ImportResult)
    requires v.Valid()
    requires Occurs(first, Marker)
    requires exists i | 0 <= i < |sources'| :: sources'[i].Some? && Occurs(sources'[i].value, From(first, Marker))
    requires Occurs(second, Marker) && From(second, Marker) == From(first, Marker)
    ensures Validate(sources', second, cultures, list) == Reject(Duplicate)
    ensures Add(v, sources', second, cultures, list, imported) == AddResult(Refused(Duplicate), v)
  {
  }

  /** An imported file registered under its own path makes every later name with the same
      tail a duplicate: its tail is a suffix of the path. */
  lemma ImportedPathHoldsTail(sources': seq<Option<string>>, first: string)
    requires Occurs(first, Marker)
    requires Some(first) in sources'
    ensures IsDuplicate(sources', From(first, Marker))
  {
    var tail := From(first, Marker);
    SuffixOccurs(first, tail);
    var i :| 0 <= i < |sources'| && sources'[i] == Some(first);
    assert sources'[i].Some? && Occurs(sources'[i].value, tail);
  }

  /** A file name that passes validation is shown, when the window next loads it, as a
      translation recognised under the very code that was validated. */
  lemma AcceptedNameIsRecognized(sources: seq<Option<string>>, fileName: string,
                                 cultures: map<string, Culture>, list: seq<Culture>)
    requires Validate(sources, fileName, cultures, list).Accept?
    ensures Classify(Some(fileName)) ==
      Item(fileName, Translation, true, RecognizedAs(Validate(sources, fileName, cultures, list).code))
  {
  }

  /** The row an accepted add appends, when the import registers the file under its own
      name, is the very row the window shows for that dictionary on its next load. */
  lemma AddedRowIsLoadedRow(v: View, sources: seq<Option<string>>, fileName: string,
                            cultures: map<string, Culture>, list: seq<Culture>)
    requires v.Valid()
    requires Validate(sources, fileName, cultures, list).Accept?
    ensures Add(v, sources, fileName, cultures, list, Imported(Some(Some(fileName)))).outcome == Added
    ensures Add(v, sources, fileName, cultures, list, Imported(Some(Some(fileName)))).view.items[|v.items|]
      == Classify(Some(fileName))
  {
    AcceptedNameIsRecognized(sources, fileName, cultures, list);
  }
}

=== FILE: naming.dfy ===
/** What happens to a bundle named `StringResources.<code>.xaml`, depending on where
    `code` stands in the supported universe. */
module Naming {
  import opened Wrappers
  import opened Text
  import opened Cultures
  import opened Import

  /** The conventional bundle file name for a language code. */
  function BundleName(code: string): string
  {
    Marker + "." + code + ".xaml"
  }

  /** A conventional name is its own tail and splits into marker, code and extension. */
  lemma BundleNamePieces(code: string)
    requires IsPiece(code)
    ensures Occurs(BundleName(code), Marker)
    ensures From(BundleName(code), Marker) == BundleName(code)
    ensures Split(From(BundleName(code), Marker)) == [Marker, code, "xaml"]
  {
    var name := BundleName(code);
    assert MatchesAt(name, Marker, 0);
    assert IsPiece(Marker) && IsPiece("xaml");
    assert Join([Marker, code, "xaml"]) == name by {
      assert Join(["xaml"]) == "xaml";
      assert Join([code, "xaml"]) == code + "." + "xaml";
      assert [Marker, code, "xaml"][1..] == [code, "xaml"];
      assert [code, "xaml"][1..] == ["xaml"];
    }
    SplitJoin([Marker, code, "xaml"]);
  }

  /** A canonical code whose culture is in the universe is accepted as written. */
  lemma SupportedCodeIsAccepted(sources: seq<Option<string>>, code: string,
                                cultures: map<string, Culture>, list: seq<Culture>)
    requires IsPiece(code)
    requires !IsDuplicate(sources, BundleName(code))
    requires code in cultures && cultures[code].Name() == code
    requires Supports(list, cultures[code])
    ensures Validate(sources, BundleName(code), cultures, list) == Accept(code)
  {
    BundleNamePieces(code);
  }

  /** A canonical code that the universe lacks, but one of whose ancestors it holds (a
      regional variant of a supported language, say), is refused as redundant, and the
      dialog proposes the nearest supported ancestor. */
  lemma UnsupportedVariantIsRedundant(sources: seq<Option<string>>, code: string,
                                      cultures: map<string, Culture>, list: seq<Culture>)
    requires IsPiece(code)
    requires !IsDuplicate(sources, BundleName(code))
    requires code in cultures && cultures[code].Name() == code
    requires !Supports(list, cultures[code])
    requires Resolve(list, cultures[code]).Some?
    ensures Validate(sources, BundleName(code), cultures, list)
      == Reject(RedundantCode(code, Resolve(list, cultures[code]).value.Name()))
  {
    BundleNamePieces(code);
  }
}

=== FILE: registry.dfy ===
/** The supported-culture universe (`GetProperCulturesAsync`) and the two registry
    downloads it depends on (`GetLanguageCodesPathAsync`, `GetLanguageCodesAsync`),
    over already-parsed JSON records. */
module Registry {
  import opened Wrappers
  import opened Seqs
  import opened Cultures

  /** Name of the manifest resource that holds the language-tag list. */
  const TagDataset: string := "ietf-language-tags_json"

  /** One element of the manifest's `resources` array. */
  datatype Resource = Resource(name: string, path: string)

  /** One element of the tag list: the tag and its definition count, as text. */
  datatype LangRecord = LangRecord(lang: string, defs: string)

  /** What an HTTP GET returned once parsed: the document, or a failure of the request,
      the response stream or the parser. */
  datatype Download<T> = Received(body: T) | Failed

  /** The exceptions that end a registry lookup. */
  datatype FetchError =
    | TransportFailed   // a request, stream or parse failure
    | NoTagDataset      // `First()` found no resource named `TagDataset`
    | EmptyPath         // the manifest gave an empty path

  /** Index of the first resource called `name`. */
  function FirstNamed(resources: seq<Resource>, name: string): (k: Option<nat>)
    ensures k.Some? ==> k.value < |resources| && resources[k.value].name == name
    ensures k.Some? ==> forall j | 0 <= j < k.value :: resources[j].name != name
    ensures k.None? ==> forall j | 0 <= j < |resources| :: resources[j].name != name
  {
    if resources == [] then None
    else if resources[0].name == name then Some(0)
    else match FirstNamed(resources[1..], name)
      case None => None
      case Some(k) => Some(k + 1)
  }

  /** The manifest step: the `path` of the first resource named `TagDataset`. */
  function DatasetPath(resources: seq<Resource>): (r: Result<string, FetchError>)
    ensures r.Failure? <==> forall j | 0 <= j < |resources| :: resources[j].name != TagDataset
    ensures r.Failure? ==> r.error == NoTagDataset
    ensures r.Success? ==> exists k | 0 <= k < |resources| ::
      && resources[k].name == TagDataset
      && resources[k].path == r.value
      && forall j | 0 <= j < k :: resources[j].name != TagDataset
  {
    match FirstNamed(resources, TagDataset)
    case None => Failure(NoTagDataset)
    case Some(k) => Success(resources[k].path)
  }

  /** The tag-list step: every `lang` whose `defs` is not "0", in record order. */
  function LanguageCodes(records: seq<LangRecord>): (codes: seq<string>)
    ensures |codes| <= |records|
    ensures forall i | 0 <= i < |records| && records[i].defs != "0" :: records[i].lang in codes
    ensures forall x | x in codes :: exists i | 0 <= i < |records| :: records[i].defs != "0" && records[i].lang == x
  {
    if records == [] then []
    else
      var rest := LanguageCodes(records[1..]);
      assert forall x | x in rest :: exists i | 0 <= i < |records| :: records[i].defs != "0" && records[i].lang == x by {
        forall x | x in rest
          ensures exists i | 0 <= i < |records| :: records[i].defs != "0" && records[i].lang == x
        {
          var i :| 0 <= i < |records[1..]| && records[1..][i].defs != "0" && records[1..][i].lang == x;
          assert records[i + 1] == records[1..][i];
        }
      }
      (if records[0].defs != "0" then [records[0].lang] else []) + rest
  }

  /** `GetLanguageCodesAsync` after `GetLanguageCodesPathAsync`: download the manifest,
      pick the dataset path, download the list at that path and keep the defined tags.
      Any failure along the way is the lookup's error. */
  function FetchLanguageCodes(manifest: Download<seq<Resource>>, tagsAt: string -> Download<seq<LangRecord>>)
    : (r: Result<seq<string>, FetchError>)
    ensures manifest.Failed? ==> r == Failure(TransportFailed)
    ensures manifest.Received? && DatasetPath(manifest.body).Failure? ==> r == Failure(NoTagDataset)
    ensures manifest.Received? && DatasetPath(manifest.body) == Success("") ==> r == Failure(EmptyPath)
    ensures manifest.Received? && DatasetPath(manifest.body).Success? && DatasetPath(manifest.body).value != "" ==>
      (r.Success? <==> tagsAt(DatasetPath(manifest.body).value).Received?)
    ensures (manifest.Received? && DatasetPath(manifest.body).Success? && DatasetPath(manifest.body).value != ""
             && tagsAt(DatasetPath(manifest.body).value).Failed?) ==> r == Failure(TransportFailed)
    ensures r.Success? ==> manifest.Received? && DatasetPath(manifest.body).Success?
    ensures r.Success? ==>
      var path := DatasetPath(manifest.body).value;
      && path != ""
      && tagsAt(path).Received?
      && forall x :: x in r.value <==> exists rec | rec in tagsAt(path).body :: rec.defs != "0" && rec.lang == x
  {
    match manifest
    case Failed => Failure(TransportFailed)
    case Received(resources) =>
      match DatasetPath(resources)
      case Failure(e) => Failure(e)
      case Success(path) =>
        if path == "" then Failure(EmptyPath)
        else match tagsAt(path)
          case Failed => Failure(TransportFailed)
          case Received(records) =>
            var codes := LanguageCodes(records);
            assert forall x :: x in codes <==> exists rec | rec in records :: rec.defs != "0" && rec.lang == x by {
              forall x | x in codes
                ensures exists rec | rec in records :: rec.defs != "0" && rec.lang == x
              {
                var i :| 0 <= i < |records| && records[i].defs != "0" && records[i].lang == x;
                assert records[i] in records;
              }
              forall rec | rec in records && rec.defs != "0"
                ensures rec.lang in codes
              {
                var i :| 0 <= i < |records| && records[i] == rec;
              }
            }
            Success(codes)
  }

  /** `GetProperCulturesAsync`: the local cultures with a non-empty name, narrowed on a
      successful lookup to those whose name the registry lists, and left whole when the
      lookup failed. The `null` test of the source never fires: an empty registry gives
      an empty universe, not the fallback. */
  function ProperCultures(local: seq<Culture>, codes: Result<seq<string>, FetchError>): (u: seq<Culture>)
    ensures NamedOnly(u)
    ensures forall i | 0 <= i < |u| :: u[i] in local
    ensures codes.Success? ==> forall c :: c in u <==> c in local && c.Name() != "" && c.Name() in codes.value
    ensures codes.Failure? ==> forall c :: c in u <==> c in local && c.Name() != ""
    ensures codes == Success([]) ==> u == []
  {
    var all := Filter(local, (c: Culture) => c.Name() != "");
    match codes
    case Success(proper) =>
      var kept := Filter(all, (c: Culture) => c.Name() in proper);
      // A first element would be a kept culture whose name is in `proper`, so an empty
      // registry answer keeps nothing: the verifier needs that element named.
      assert |kept| > 0 ==> kept[0] in kept;
      kept
    case Failure(_) => all
  }
}

=== FILE: resource_list.dfy ===
/** The window's list of resource dictionaries: how each merged dictionary is shown when
    the window loads, and how the move, remove and append commands change the list and
    its selection. */
module ResourceList {
  import opened Wrappers
  import opened Seqs
  import opened Text

  /** What a row stands for. */
  datatype Kind = Settings | Translation | Style

  /** The text under a row's content. */
  datatype Note = SettingsDictionary | RecognizedAs(code: string) | NotRecognized | StyleDictionary

  /** One row of the list. The row's tag and content are the same string, `content`. */
  datatype Item = Item(content: string, kind: Kind, enabled: bool, note: Note)

  /** The rows and the selected index, -1 when nothing is selected. */
  datatype View = View(items: seq<Item>, selected: int)
  {
    predicate Valid()
    {
      -1 <= selected < |items|
    }
  }

  /** The note a translation row gets from its source: the middle piece when the part from
      the marker on splits into exactly three pieces. */
  function NameNote(source: string): Note
    requires Occurs(source, Marker)
  {
    var pieces := Split(From(source, Marker));
    if |pieces| == 3 then RecognizedAs(pieces[1]) else NotRecognized
  }

  /** The row for one merged dictionary, given its source's original string (None when it
      has no source). */
  function Classify(source: Option<string>): (item: Item)
    ensures item.kind == Settings <==> source.None?
    ensures item.kind == Translation <==> source.Some? && Occurs(source.value, Marker)
    ensures item.enabled <==> item.kind == Translation
    ensures item.content == (if source.Some? then source.value else "Settings")
    ensures item.note.RecognizedAs? ==> item.kind == Translation
    ensures item.note.RecognizedAs? ==>
      var pieces := Split(From(source.value, Marker));
      |pieces| == 3 && item.note.code == pieces[1]
    ensures item.kind == Translation && |Split(From(source.value, Marker))| == 3 ==> item.note.RecognizedAs?
    ensures item.kind == Translation && |Split(From(source.value, Marker))| != 3 ==> item.note == NotRecognized
    ensures item.kind == Settings ==> item.note == SettingsDictionary
    ensures item.kind == Style ==> item.note == StyleDictionary
  {
    match source
    case None => Item("Settings", Settings, false, SettingsDictionary)
    case Some(s) =>
      if Occurs(s, Marker) then Item(s, Translation, true, NameNote(s))
      else Item(s, Style, false, StyleDictionary)
  }

  /** `Localization_OnLoaded`: one row per merged dictionary, in order, with the last row
      selected (none when there are no dictionaries). */
  function Load(sources: seq<Option<string>>): (v: View)
    ensures v.Valid()
    ensures |v.items| == |sources|
    ensures forall i | 0 <= i < |sources| :: v.items[i] == Classify(sources[i])
    ensures v.selected == |v.items| - 1
  {
    View(seq(|sources|, i requires 0 <= i < |sources| => Classify(sources[i])), |sources| - 1)
  }

  /** `MoveUp_CanExecute`: a row is selected and some row lies above it. */
  function CanMoveUp(v: View): (b: bool)
    ensures b ==> v.selected != -1
    ensures v.Valid() ==> (b <==> 0 <= v.selected - 1 && v.selected < |v.items|)
  {
    v.selected > 0
  }

  /** `MoveDown_CanExecute`: a row is selected and some row lies below it, or, as the
      source's comparison also admits, nothing is selected in a non-empty list. */
  function CanMoveDown(v: View): (b: bool)
    ensures v.Valid() ==>
      (b <==> (v.selected != -1 && v.selected + 1 < |v.items|) || (v.selected == -1 && |v.items| > 0))
  {
    v.selected < |v.items| - 1
  }

  /** `Remove_CanExecute`: some row is selected. */
  function CanRemove(v: View): (b: bool)
    ensures v.Valid() ==> (b <==> 0 <= v.selected < |v.items|)
  {
    v.selected != -1
  }

  /** `MoveUp_Executed`, given whether the resource helper performed the move: the selected
      row changes places with the row above it and stays selected. */
  function MoveUp(v: View, accepted: bool): (w: View)
    requires v.Valid() && CanMoveUp(v)
    ensures w.Valid()
    ensures !accepted ==> w == v
    ensures accepted ==> Swapped(v.items, w.items, v.selected - 1) && w.selected == v.selected - 1
    ensures multiset(w.items) == multiset(v.items)
  {
    if !accepted then v
    else
      var i := v.selected;
      RelocateEarlier(v.items, i);
      View(InsertAt(RemoveAt(v.items, i), i - 1, v.items[i]), i - 1)
  }

  /** The result of a command that can also end in an unhandled exception. */
  datatype Step = Done(view: View) | IndexFault

  /** `MoveDown_Executed`, given whether the resource helper performed the move: the selected
      row changes places with the row below it and stays selected. With nothing selected an
      accepted move reads `Items[-1]`, which throws. */
  function MoveDown(v: View, accepted: bool): (s: Step)
    requires v.Valid() && CanMoveDown(v)
    ensures s.IndexFault? <==> accepted && v.selected == -1
    ensures !accepted ==> s == Done(v)
    ensures s.Done? && accepted ==> Swapped(v.items, s.view.items, v.selected) && s.view.selected == v.selected + 1
    ensures s.Done? ==> s.view.Valid() && multiset(s.view.items) == multiset(v.items)
  {
    if !accepted then Done(v)
    else if v.selected == -1 then IndexFault
    else
      var i := v.selected;
      RelocateLater(v.items, i);
      Done(View(InsertAt(RemoveAt(v.items, i), i + 1, v.items[i]), i + 1))
  }

  /** `Remove_Executed`, given whether the resource helper removed the dictionary: the
      selected row disappears, the rows below it move up by one, and the list control
      clears the selection. */
  function Remove(v: View, accepted: bool): (w: View)
    requires v.Valid() && CanRemove(v)
    ensures w.Valid()
    ensures !accepted ==> w == v
    ensures accepted ==> && |w.items| == |v.items| - 1
                         && (forall j | 0 <= j < v.selected :: w.items[j] == v.items[j])
                         && (forall j | v.selected <= j < |w.items| :: w.items[j] == v.items[j + 1])
                         && multiset(w.items) == multiset(v.items) - multiset{v.items[v.selected]}
                         && w.selected == -1
  {
    if !accepted then v else View(RemoveAt(v.items, v.selected), -1)
  }

  /** `Items.Add` after an import: the new row goes last and the selection stays. */
  function Append(v: View, item: Item): (w: View)
    requires v.Valid()
    ensures w.Valid()
    ensures |w.items| == |v.items| + 1 && w.items[|v.items|] == item
    ensures w.items[..|v.items|] == v.items && w.selected == v.selected
  {
    View(v.items + [item], v.selected)
  }

  /** Moving a row up and then back down restores the list and the selection. */
  lemma MoveUpThenDown(v: View)
    requires v.Valid() && CanMoveUp(v)
    ensures CanMoveDown(MoveUp(v, true))
    ensures MoveDown(MoveUp(v, true), true) == Done(v)
  {
    var w := MoveUp(v, true);
    var s := MoveDown(w, true);
    SwapTwice(v.items, w.items, s.view.items, v.selected - 1);
  }

  /** Moving a selected row down and then back up restores the list and the selection. */
  lemma MoveDownThenUp(v: View)
    requires v.Valid() && CanMoveDown(v) && v.selected != -1
    ensures MoveDown(v, true).Done? && CanMoveUp(MoveDown(v, true).view)
    ensures MoveUp(MoveDown(v, true).view, true) == v
  {
    var w := MoveDown(v, true).view;
    var u := MoveUp(w, true);
    SwapTwice(v.items, w.items, u.items, v.selected);
  }
}

=== FILE: seqs.dfy ===
/** Positional operations on sequences, as a list control's item collection offers them. */
module Seqs {

  /** The elements of `s` that satisfy `p`, in their original order (LINQ's `Where`). */
  function Filter<T>(s: seq<T>, p: T -> bool): (r: seq<T>)
    ensures |r| <= |s|
    ensures forall i | 0 <= i < |r| :: r[i] in s && p(r[i])
    ensures forall i | 0 <= i < |s| && p(s[i]) :: s[i] in r
  {
    if s == [] then []
    else (if p(s[0]) then [s[0]] else []) + Filter(s[1..], p)
  }

  /** `s` without its element at `i` (`RemoveAt`). */
  function RemoveAt<T>(s: seq<T>, i: nat): (r: seq<T>)
    requires i < |s|
    ensures |r| == |s| - 1
    ensures forall j | 0 <= j < i :: r[j] == s[j]
    ensures forall j | i <= j < |r| :: r[j] == s[j + 1]
    ensures multiset(r) == multiset(s) - multiset{s[i]}
  {
    assert s == s[..i] + [s[i]] + s[i + 1..];
    s[..i] + s[i + 1..]
  }

  /** `s` with `x` placed at position `i`, later elements shifted right (`Insert`). */
  function InsertAt<T>(s: seq<T>, i: nat, x: T): (r: seq<T>)
    requires i <= |s|
    ensures |r| == |s| + 1
    ensures r[i] == x
    ensures forall j | 0 <= j < i :: r[j] == s[j]
    ensures forall j | i < j < |r| :: r[j] == s[j - 1]
    ensures multiset(r) == multiset(s) + multiset{x}
  {
    assert s == s[..i] + s[i..];
    s[..i] + [x] + s[i..]
  }

  /** `b` is `a` with the neighbours at `k` and `k + 1` exchanged and nothing else changed. */
  predicate Swapped<T(==)>(a: seq<T>, b: seq<T>, k: int)
  {
    && 0 <= k < k + 1 < |a|
    && |b| == |a|
    && b[k] == a[k + 1]
    && b[k + 1] == a[k]
    && forall j | 0 <= j < |a| && j != k && j != k + 1 :: b[j] == a[j]
  }

  /** Exchanging the same neighbours twice gives the sequence back. */
  lemma SwapTwice<T>(a: seq<T>, b: seq<T>, c: seq<T>, k: int)
    requires Swapped(a, b, k) && Swapped(b, c, k)
    ensures c == a
  {
  }

  /** Taking out the element at `i` and putting it back one place earlier exchanges it with
      its left neighbour. */
  lemma RelocateEarlier<T>(s: seq<T>, i: nat)
    requires 0 < i < |s|
    ensures Swapped(s, InsertAt(RemoveAt(s, i), i - 1, s[i]), i - 1)
    ensures multiset(InsertAt(RemoveAt(s, i), i - 1, s[i])) == multiset(s)
  {
  }

  /** Taking out the element at `i` and putting it back one place later exchanges it with
      its right neighbour. */
  lemma RelocateLater<T>(s: seq<T>, i: nat)
    requires i + 1 < |s|
    ensures Swapped(s, InsertAt(RemoveAt(s, i), i + 1, s[i]), i)
    ensures multiset(InsertAt(RemoveAt(s, i), i + 1, s[i])) == multiset(s)
  {
  }
}

=== FILE: text.dfy ===
/** The string operations the resource-name checks rely on: ordinal substring search,
    the suffix from the first occurrence of a pattern, and `Split('.')` with empty
    entries removed. */
module Text {
  import opened Wrappers

  /** The segment every string-resource file name carries. */
  const Marker: string := "StringResources"

  /** `pat` occurs in `s` starting at position `j`. */
  predicate MatchesAt(s: string, pat: string, j: nat)
  {
    j + |pat| <= |s| && s[j..j + |pat|] == pat
  }

  /** Ordinal `s.Contains(pat)`. */
  predicate Occurs(s: string, pat: string)
  {
    exists j: nat | j <= |s| :: MatchesAt(s, pat, j)
  }

  /** The first position at or after `i` where `pat` occurs in `s`. */
  function IndexFrom(s: string, pat: string, i: nat): (r: Option<nat>)
    requires i <= |s|
    decreases |s| - i
    ensures r.Some? ==> i <= r.value && MatchesAt(s, pat, r.value)
    ensures r.Some? ==> forall j | i <= j < r.value :: !MatchesAt(s, pat, j)
    ensures r.None? ==> forall j | i <= j <= |s| :: !MatchesAt(s, pat, j)
  {
    if MatchesAt(s, pat, i) then Some(i)
    else if i == |s| then None
    else IndexFrom(s, pat, i + 1)
  }

  /** Ordinal `s.IndexOf(pat)`, with None for the source's -1. */
  function IndexOf(s: string, pat: string): (r: Option<nat>)
    ensures r.Some? <==> Occurs(s, pat)
    ensures r.Some? ==> MatchesAt(s, pat, r.value)
    ensures r.Some? ==> forall j | 0 <= j < r.value :: !MatchesAt(s, pat, j)
  {
    IndexFrom(s, pat, 0)
  }

  /** `s.Substring(s.IndexOf(pat))`: the suffix of `s` that starts at the first occurrence of `pat`. */
  function From(s: string, pat: string): (t: string)
    requires Occurs(s, pat)
    ensures |pat| <= |t| <= |s|
    ensures t[..|pat|] == pat
    ensures t == s[|s| - |t|..]
    ensures forall j | 0 <= j < |s| - |t| :: !MatchesAt(s, pat, j)
  {
    var k := IndexOf(s, pat).value;
    assert s[k..][..|pat|] == s[k..k + |pat|];
    s[k..]
  }

  /** A suffix of a string occurs in it. */
  lemma SuffixOccurs(s: string, t: string)
    requires |t| <= |s| && t == s[|s| - |t|..]
    ensures Occurs(s, t)
  {
    assert MatchesAt(s, t, |s| - |t|);
  }

  /** A non-empty run of characters without a '.'. */
  predicate IsPiece(p: string)
  {
    p != [] && '.' !in p
  }

  /** The longest prefix of `s` that holds no '.'. */
  function Segment(s: string): (seg: string)
    ensures seg <= s
    ensures '.' !in seg
    ensures |seg| == |s| || s[|seg|] == '.'
  {
    if s == [] || s[0] == '.' then [] else [s[0]] + Segment(s[1..])
  }

  /** `s.Split(new[] {'.'}, StringSplitOptions.RemoveEmptyEntries)`. */
  function Split(s: string): (pieces: seq<string>)
    decreases |s|
    ensures forall i | 0 <= i < |pieces| :: IsPiece(pieces[i])
  {
    var seg := Segment(s);
    var head := if seg == [] then [] else [seg];
    if |seg| == |s| then head else head + Split(s[|seg| + 1..])
  }

  /** The pieces written back with a '.' between neighbours. */
  function Join(pieces: seq<string>): string
  {
    if |pieces| == 0 then []
    else if |pieces| == 1 then pieces[0]
    else pieces[0] + "." + Join(pieces[1..])
  }

  /** `s` with every '.' deleted. */
  function Undotted(s: string): string
  {
    if s == [] then [] else (if s[0] == '.' then [] else [s[0]]) + Undotted(s[1..])
  }

  /** All pieces written one after the other. */
  function Concat(pieces: seq<string>): string
  {
    if pieces == [] then [] else pieces[0] + Concat(pieces[1..])
  }

  /** A dot-free prefix followed by a '.' (or by nothing) is exactly the segment. */
  lemma {:induction false} SegmentOf(p: string, rest: string)
    requires '.' !in p
    requires rest == [] || rest[0] == '.'
    ensures Segment(p + rest) == p
  {
    if p == [] {
      assert p + rest == rest;
    } else {
      assert p[0] in p;
      assert (p + rest)[1..] == p[1..] + rest;
      SegmentOf(p[1..], rest);
      assert p == [p[0]] + p[1..];
    }
  }

  /** A single piece splits into itself. */
  lemma SplitPiece(p: string)
    requires IsPiece(p)
    ensures Split(p) == [p]
  {
    SegmentOf(p, []);
    assert p + [] == p;
  }

  /** A piece followed by a '.' splits off as the first piece. */
  lemma SplitAfterPiece(p: string, rest: string)
    requires IsPiece(p)
    ensures Split(p + "." + rest) == [p] + Split(rest)
  {
    var s := p + "." + rest;
    assert s == p + ("." + rest);
    SegmentOf(p, "." + rest);
    assert s[|p| + 1..] == rest;
  }

  /** A '.' cuts the input in two: the pieces of the whole are the pieces of each side,
      so leading, trailing and doubled dots only drop empty entries. */
  lemma {:induction false} SplitDistributes(a: string, b: string)
    ensures Split(a + ['.'] + b) == Split(a) + Split(b)
    decreases |a|
  {
    var s := a + ['.'] + b;
    var seg := Segment(a);
    var head := if seg == [] then [] else [seg];
    if |seg| == |a| {
      assert seg == a;
      SegmentOf(a, ['.'] + b);
      assert s == a + (['.'] + b);
      assert s[|a| + 1..] == b;
      assert Split(a) == head;
    } else {
      var rest := a[|seg| + 1..];
      assert a == seg + (['.'] + rest);
      assert s == seg + (['.'] + (rest + ['.'] + b));
      SegmentOf(seg, ['.'] + (rest + ['.'] + b));
      assert s[|seg| + 1..] == rest + ['.'] + b;
      SplitDistributes(rest, b);
      assert Split(a) == head + Split(rest);
    }
  }

  /** Splitting undoes joining, for pieces that are non-empty and dot-free. */
  lemma {:induction false} SplitJoin(pieces: seq<string>)
    requires forall i | 0 <= i < |pieces| :: IsPiece(pieces[i])
    ensures Split(Join(pieces)) == pieces
  {
    if |pieces| == 1 {
      SplitPiece(pieces[0]);
    } else if |pieces| > 1 {
      SplitAfterPiece(pieces[0], Join(pieces[1..]));
      SplitJoin(pieces[1..]);
      assert pieces == [pieces[0]] + pieces[1..];
    }
  }

  lemma {:induction false} UndottedAppend(a: string, b: string)
    ensures Undotted(a + b) == Undotted(a) + Undotted(b)
  {
    if a != [] {
      assert (a + b)[1..] == a[1..] + b;
      UndottedAppend(a[1..], b);
    } else {
      assert a + b == b;
    }
  }

  lemma {:induction false} ConcatAppend(a: seq<string>, b: seq<string>)
    ensures Concat(a + b) == Concat(a) + Concat(b)
  {
    if a != [] {
      assert (a + b)[1..] == a[1..] + b;
      ConcatAppend(a[1..], b);
    } else {
      assert a + b == b;
    }
  }

  lemma {:induction false} UndottedPiece(p: string)
    requires '.' !in p
    ensures Undotted(p) == p
  {
    if p != [] {
      UndottedPiece(p[1..]);
    }
  }

  /** Deleting the dots of `s` keeps its first segment and then the dot-free rest after the
      '.' that ends the segment. */
  lemma UndottedSegment(s: string)
    ensures |Segment(s)| < |s| ==> Undotted(s) == Segment(s) + Undotted(s[|Segment(s)| + 1..])
    ensures |Segment(s)| == |s| ==> Undotted(s) == s
  {
    var seg := Segment(s);
    UndottedPiece(seg);
    assert s == seg + s[|seg|..];
    UndottedAppend(seg, s[|seg|..]);
    if |seg| < |s| {
      var rest := s[|seg| + 1..];
      assert s[|seg|..] == ['.'] + rest;
      UndottedAppend(['.'], rest);
    } else {
      assert s[|seg|..] == [];
    }
  }

  /** Splitting loses nothing but dots: the pieces hold every other character of `s`, in order. */
  lemma {:induction false} SplitKeepsContent(s: string)
    ensures Concat(Split(s)) == Undotted(s)
    decreases |s|
  {
    var seg := Segment(s);
    var head := if seg == [] then [] else [seg];
    assert Concat(head) == seg by {
      if seg != [] {
        assert head[1..] == [];
      }
    }
    UndottedSegment(s);
    if |seg| < |s| {
      var rest := s[|seg| + 1..];
      assert Split(s) == head + Split(rest);
      SplitKeepsContent(rest);
      ConcatAppend(head, Split(rest));
    }
  }
}

=== FILE: wrappers.dfy ===
/** Failure-carrying values shared by every module of the model. */
module Wrappers {

  /** A value that may be absent; stands for a .NET reference that may be null. */
  datatype Option<+T> = None | Some(value: T)

  /** Either a value or the reason it could not be produced; stands for a call that may throw. */
  datatype Result<+R, +E> = Success(value: R) | Failure(error: E)
}
